=== FILE: README.md ===
# OPC UA exporter: decision logic in Dafny

This project models the decision logic of an OPC UA to Prometheus exporter.
The exporter connects to an OPC UA server, negotiates a security policy and
mode, reads a configured list of nodes on every scrape, and republishes the
values as Prometheus samples. It can also reload its metric list at run time.
Four parts are modelled, one Dafny module per source file:

- **Endpoint negotiation** (`Client`, client/client.go). The policy option
  ("auto", a full policy URI, or one of six bare names) and the mode option
  (auto/none/sign/signandencrypt, in any letter case) are resolved. Security
  None is forced on both options when either names it. One of four scans
  then picks an endpoint from the discovery list. `Client` also models the
  auth dispatch and the fixed session options: 10-minute lifetime, 5-second
  request timeout, auto-reconnect.
- **Metric cache and poll walk** (`Collector`, collector/collector.go). The
  cache is built from the metric list in order, and the build is all or
  nothing. Label maps are spread into parallel key and value sequences, and
  type words map to value types. `Collect` correlates read results to cache
  entries by position and then adds four statistics samples.
- **Metrics configuration** (`Config`, config/config.go). This covers
  validation of the metric list, and the loading that decodes into the
  existing record before validating it.
- **Reload path and logger** (`Reload` for main.go; `Log` and `JsonLog` for
  log/log.go and log/jsonlog/jsonlog.go). Each is a small state record
  advanced one step at a time: file, shared configuration, collector and
  registration for the reload path; verbosity, two output streams and halt
  status for the logger.

`Wrappers` (Option/Result/Outcome) and `Text` (prefix, substring,
lower-casing, decimal printing) are helpers.

The source changes the client's option strings through pointers: it blanks
the policy and mode during a scan, restores the policy afterwards, and
rewrites an unknown auth mode to "Anonymous". The model keeps the options in
`Config.ServerConfig` and returns them as the code leaves them (`after`).
The library's mode numbering has a zero value below None (`ModeInvalid`).
A mode option such as "Auto" passes the lower-cased check, but the scan
tests the field for exactly "auto", so such a mode keeps the mode filter
on. Unless the policy names None (which forces None on both), that filter
asks for the zero value.

Outside calls are parameters (oracles):
- endpoint discovery (a `Result` of endpoints);
- `UserTokenTypeFromString` (`tokenOf`);
- `ParseNodeID` (`parse`);
- the batched read (`read`);
- whether the exposition library accepts a sample (`accepts`);
- the YAML decoder (`unmarshal`, which returns the record as left plus an
  optional error);
- whether the registry accepts the collector (`register`);
- whether the file write succeeds.

Durations and read values are abstract (`Elapsed(clock)`, `Reading(variant)`).

### Behaviour a reader might not expect
- Among equal candidates every scan keeps the **later** endpoint, because each
  scan tests with `>=`.
- The auto/auto scan compares mode and level componentwise, not as a
  lexicographic pair. Its outcome depends on list order.
- The endpoint's support for the requested token type is never enforced
  (see Findings).
- A failed reload is not side-effect free. The decoded contents are already
  in the shared configuration. The HTTP handler still rebuilds the cache from
  them and re-registers the collector.
- With policy "auto" and mode "none", only the mode filter is active. The
  forced None policy is computed but not used by that scan.

## Model

| member | source | states |
|---|---|---|
| Client.ResolvePolicy | client/client.go:79-89 | "auto" means unconstrained, a string with the policy-URI prefix is kept verbatim, exactly the six bare names are prefixed, and anything else (including "" and other letter cases) is an invalid-policy error naming the option |
| Client.ResolvedPolicyIsFixedPoint | client/client.go:79-86 | a resolved policy URI resolves again to itself |
| Client.ResolveMode | client/client.go:91-105 | the lower-cased mode selects auto/None/Sign/SignAndEncrypt and anything else is an invalid-mode error naming the option as given; the unset mode is never produced |
| Client.ResolveModeIgnoresCase | client/client.go:91-105 | a valid mode resolves exactly like its lower-case form |
| Client.ModeOnlyScanExample | client/client.go:123-128 | with the mode fixed to Sign, [Sign/1, Sign/3, None/9] selects the Sign endpoint of level 3 |
| Client.Plan | client/client.go:79-143 | option resolution fails on the first invalid option; which filters are active depends on the fields being exactly "auto"; when either option names None, the active filters ask for policy URI None and mode None; otherwise the policy filter carries the resolved policy URI, and the mode filter carries the chosen mode, or the unset mode when the option resolved to automatic |
| Client.ExplicitNoneForcesNone | client/client.go:107-111 | naming None for either option makes every active filter None (for example policy None with mode Sign searches None/None) |
| Client.MixedCaseAutoFiltersUnsetMode | client/client.go:91-128 | mode "Auto" with policy "auto" runs the mode-only scan against the unset mode |
| Client.Select | client/client.go:114-143 | a scan ends with an index into the list of an endpoint the filter admits, and finds none iff no endpoint is admitted (for the unconstrained scan: iff the list is empty) |
| Client.FilteredSelectIsLastBest | client/client.go:123-142 | a constrained scan ends with a matching endpoint of maximal level, and no later matching endpoint has that level (the last one wins ties) |
| Client.AutoSelectDominance | client/client.go:116-121 | the auto/auto result is componentwise at least the first endpoint and is dominated by no later endpoint |
| Client.AutoSelectDependsOnOrder | client/client.go:116-121 | the auto/auto result is not the highest (mode, level) pair: an earlier higher-level endpoint keeps a stronger-mode one out, and swapping the two changes the result |
| Client.SecurityOptions | client/client.go:70-158 | discovery errors and invalid options propagate; success iff some endpoint passes the active filter, and then the endpoint is the one the scan ends with, paired with the auth option's token type; otherwise "no suitable endpoint"; the policy option comes back blanked exactly when an explicit policy met an invalid mode and is restored otherwise, and the mode option is blanked exactly when it named a mode and the scan was reached |
| Client.NegotiationPicksHighestLevel | client/client.go:123-142 | with a policy and/or mode constraint and some matching endpoint, negotiation succeeds and the negotiated endpoint has the highest level among matching endpoints, and no later matching endpoint has that level (the last one wins ties) |
| Client.NegotiationAutoDominance | client/client.go:116-121 | with both options "auto" and at least one endpoint, negotiation succeeds with an endpoint at least as strong as the first in mode and level, and no later endpoint is at least as strong as it in both |
| Client.EmptyDiscoveryFails | client/client.go:145-149 | an empty endpoint list gives "no suitable endpoint" with the policy option restored |
| Client.ValidateEndpointConfig | client/client.go:160-171 | passes iff some endpoint with the given policy and mode lists the requested token type |
| Client.AuthNeverDecidesNegotiation | client/client.go:151-157 | the token type the auth option maps to never changes whether negotiation succeeds, nor the options it leaves |
| Client.AuthCheckIgnored | client/client.go:151-153 | an endpoint accepting no token type is still negotiated although the token check fails for it |
| Client.SecurityOptionsChecked | client/client.go:151-153 | with the token check applied: a failed negotiation is passed through unchanged; a successful one is kept exactly iff some endpoint with the chosen policy and mode accepts the token type, and is otherwise refused naming that policy and mode |
| Client.ClientWithOptions | client/client.go:40-53 | the given options come first, then the negotiated security option exactly when negotiation succeeded (otherwise its error is kept for logging), then the 10-minute lifetime, 5-second timeout and auto-reconnect; the options record is left as negotiation leaves it |
| Client.NewClientFromServerConfig | client/client.go:17-53 | "Certificate" and "UserName" take their credentials, any other auth option becomes "Anonymous" before negotiating; a client is always produced, carrying exactly the security that negotiation on those options chose when it succeeded and its error otherwise, always ending with the 10-minute lifetime, 5-second timeout and auto-reconnect; the options are left as that negotiation leaves them |
| Collector.MetricValueType | collector/collector.go:189-200 | "counter" maps to Counter; "gauge", "Float" and "Double" map to Gauge; every other word (including "Counter") maps to Untyped |
| Collector.NewMetric | collector/collector.go:143-159 | key and value sequences of equal length with labels[keys[i]] == values[i], every label key listed exactly once, the descriptor naming the keys in the same order |
| Collector.LoadMetricsCache | collector/collector.go:126-141 | fails iff some node id does not parse, reporting the first failure and keeping the old cache; otherwise entry i is built from metric i (node id, parsed read handle, name, help, type, labels) |
| Collector.ReloadMetrics | collector/collector.go:66-68 | the load error is dropped: an unparsable list keeps the old cache, a parsable one replaces it in order; statistics untouched |
| Collector.NewCollector | collector/collector.go:49-64 | four label-free gauge statistics whose descriptors carry the fixed names and help texts in order, the fixed error descriptor, and a cache loaded from the configuration (empty when a node id fails) |
| Collector.Describe | collector/collector.go:70-77 | one descriptor per cache entry in cache order, then one per statistics metric |
| Collector.ScrapeRequest | collector/collector.go:161-171 | the request reads every cached node in cache order with max age 2000 and both time stamps |
| Collector.ScrapeTarget | collector/collector.go:161-179 | a read error is returned with duration -1; otherwise the response with the measured read time |
| Collector.ValueFromIndex | collector/collector.go:181-187 | a result whose status is not OK is an error carrying the status, otherwise its value |
| Collector.MetricWithValue | collector/collector.go:114-124 | a value sample with the metric's descriptor, type and label values exactly when the exposition library accepts it; otherwise an error sample on the error descriptor naming the metric and its labels |
| Collector.Collect | collector/collector.go:79-112 | a failed read emits exactly one error sample; otherwise one sample per cache entry then one per statistics metric, where entry i is a bad-status error sample iff result i is not OK, and otherwise the value-or-rejection sample for that entry's metric and value; statistics sample i is the value-or-rejection sample for statistic i with the value its name selects |
| Collector.CollectMatchesDescribe | collector/collector.go:70-112 | every value sample of a successful collection sits at the position of its descriptor in Describe |
| Collector.GoodStatusGivesValue | collector/collector.go:90-124 | an OK result yields a value sample with the entry's descriptor, type and ordered label values |
| Collector.ErrorSamplesCountBadStatuses | collector/collector.go:90-97 | the walk emits exactly as many error samples as there are non-OK results among the first N results (one bad node among N gives 1 error and N-1 values) |
| Collector.RespReturnedCountsResults | collector/collector.go:98-111 | with the standard statistics, resp_returned reports the number of results and the other three report the walk, total and read clocks |
| Config.FirstMissing | config/config.go:88-101 | reports the first empty field in the order name, help, node id, type, and nothing iff all four are set |
| Config.NodeIdReportedAsNodeValue | config/config.go:95-97 | a missing node id is reported as missing 'nodeValue', with the metric's index at the end of the text |
| Config.ValidateFrom | config/config.go:88-102 | passes iff every metric from the index on is complete; otherwise names the lowest incomplete index and its first empty field |
| Config.Validate | config/config.go:84-103 | an empty list fails with missing 'metrics'; otherwise passes iff every metric has name, help, node id and type (labels unchecked), reporting the lowest failing index |
| Config.ReadFile | config/config.go:61-66 | a missing file gives an error whose text contains "no such file or directory" |
| Config.LoadMetricsConfig | config/config.go:60-75 | a missing file is success with nothing changed; other read errors propagate unchanged; file contents are decoded into the existing record before validation, so a failed validation leaves them in place; after a clean decode the result is validation's own verdict, with its index and field |
| Config.NewConfig | config/config.go:40-58 | arguments land in the like-named server fields; building succeeds iff loading does; a missing file gives an empty, unvalidated metric list; on success the config is the record loading left (server fields plus the decoded metrics), and a failure carries loading's own error |
| Reload.HolderLaws | main.go:182-200 | reading the holder returns what was last stored, and storing what was read leaves the holder unchanged |
| Reload.SetConfig | main.go:196-200 | after storing, the holder hands out exactly the stored record |
| Reload.ReloadConfig | main.go:182-209 | returns the load's result; the shared configuration holds the decoded contents even when the reload fails; success means unchanged or valid |
| Reload.FailedReloadStaysVisible | main.go:202-209 | a file decoding to an empty list is rejected, yet readers now see the empty list |
| Reload.ReloadOnChannel | main.go:232-247 | the worker answers nil iff the reload succeeded, and otherwise exactly the reload's error |
| Reload.Persisted | main.go:145-156 | the file changes only to a non-empty body in update mode, and does so whenever the write succeeds |
| Reload.HandleReload | main.go:141-175 | non-POST gets 400 and changes nothing; an unreadable body in update mode gets 400 and changes nothing; otherwise the config is reloaded (500 on failure), then the cache is rebuilt from the configuration as it now stands and the collector re-registered, failure or not; the collector's statistics and error descriptor are left as they were |
| Log.GetVerbosityFromString | log/log.go:27-42 | "debug", "info", "err", "fatal" map to their levels and every other string (including "", "error", "DEBUG") to Warn; the result lies in [Debug, Fatal] |
| Log.AdvertisedWordsFallBackToWarn | log/log.go:27-42 | "error", "" and "DEBUG" all give Warn |
| JsonLog.NewLogger | log/jsonlog/jsonlog.go:19-21 | the logger built from the empty configuration that main.go:79 passes has verbosity Debug and has written nothing |
| JsonLog.SetVerbosity | log/jsonlog/jsonlog.go:27-29 | the verbosity becomes the parsed level, always within [Debug, Fatal]; streams untouched |
| JsonLog.Emit | log/jsonlog/jsonlog.go:31-61 | Debug/Info/Warn append one line to stdout and Err one line to stderr iff the verbosity is at most their level; otherwise nothing changes; Panic and Fatal always append to stderr and stop the process (panic, exit status 1) |
| JsonLog.GatingMonotone | log/jsonlog/jsonlog.go:31-53 | a message that passes at verbosity v passes at any lower verbosity |
| JsonLog.ErrorsSuppressedAtFatal | log/jsonlog/jsonlog.go:49-61 | at verbosity Fatal an error message is dropped while panic and fatal messages still reach stderr |

## Left out

- Concurrency: goroutines, the reload channel, the read/write lock and SIGHUP handling. Each reload request is one sequential step, and no interleaving or atomic-swap claim is made.
- HTTP serving, route wiring, flag parsing, the `/config` and `/metrics` handlers (with `GetMetricsConfig`, which only the `/config` handler uses), the startup sequence in `main`, and scrape timing and summary observation.
- OPC UA library calls (discovery, client construction, `Connect`, `Read`, node-id parsing, token-type parsing, `SecurityFromEndpoint`). They are oracles. The client's own connection error is only logged, and the collector's connect-and-exit path is left out (see Collector.NewCollector below).
- Certificate handling (`certificateOptions`, reading the certificate file). Certificate auth is modelled as the pair of configured paths.
- YAML encoding and decoding. Decoding is an oracle, and no round-trip claim is made.
- Float conversion of read values, and all durations. These are abstract values.
- JsonLog.NewLogger: takes no configuration. The only caller passes an empty one, and its prefix only affects line formatting.
- The logger's line formatting (time stamp, quoting, prefix). Log calls made by the client, collector and handlers are not threaded through the model.
- The unused `fromMSSToSA`.
- Collector.Collect: requires at least one result per cached node. When a response is shorter, the source panics with an index error; that case is not modelled.
- Reload.HandleReload: unregistering is modelled as dropping the registered snapshot. The registry's identification of collectors by their descriptor set is not modelled.
- Reload.Persisted: a failed write is modelled as leaving the file unchanged. A real failed write could leave it truncated.
- Collector.NewCollector: the connect call and the fatal log that ends the process when it fails are not modelled. The model describes the collector as built once connected.
- Client.Endpoint: the security level is an unbounded natural. The library's byte width does not affect any comparison.
- Text.ToLower: characters whose lower case is not an ASCII letter are kept unchanged. Go maps them to other characters outside ASCII, so no comparison with the ASCII mode words changes outcome.

## Findings

| source | as written | input that shows it | evidently intended | confidence | as-written member | corrected member |
|---|---|---|---|---|---|---|
| client/client.go:151-153 | `if validateEndpointConfig(...); err != nil` runs the token check as a statement and then tests the stale discovery error, which is always nil there. Negotiation therefore succeeds even when the chosen endpoint's policy and mode accept the token type nowhere | policy "None", mode "auto", auth "Anonymous", one endpoint (None URI, mode None, level 0, no token types): negotiation returns that endpoint | fail with "error validating input" when the check fails | high; not executed | Client.SecurityOptions (shown by Client.AuthCheckIgnored) | Client.SecurityOptionsChecked |

`Client.NewClientFromServerConfig` uses the as-written negotiation. In the
source, a negotiation error only drops the security option from the client;
it does not stop the client from being built. With the corrected negotiation,
the client in this example would carry no security option.

=== FILE: client.dfy ===
/**
 * Endpoint negotiation and client assembly (client/client.go).
 *
 * The option strings are the fields of `Config.ServerConfig`; the source
 * mutates them through pointers (the policy and mode are blanked while a
 * scan runs, the policy is put back afterwards, an unknown auth mode is
 * rewritten to "Anonymous"), so every operation returns the options as it
 * leaves them.
 */
module Client {
  import opened Wrappers
  import opened Text
  import Config

  /**
   * Message security mode. `ModeInvalid` is the library's zero value: it is
   * what the mode variable holds when no mode was chosen.
   */
  datatype SecurityMode = ModeInvalid | ModeNone | ModeSign | ModeSignAndEncrypt

  /** The library's numbering of modes, which the `>=` comparisons use. */
  function Rank(m: SecurityMode): nat
  {
    match m
    case ModeInvalid => 0
    case ModeNone => 1
    case ModeSign => 2
    case ModeSignAndEncrypt => 3
  }

  /** User identity token types a server endpoint may accept. */
  datatype TokenType = AnonymousToken | UserNameToken | CertificateToken | IssuedToken

  /** A server endpoint as returned by discovery. */
  datatype Endpoint = Endpoint(url: string, policyUri: string, mode: SecurityMode, level: nat, tokens: seq<TokenType>)

  const PolicyUriPrefix := "http://opcfoundation.org/UA/SecurityPolicy#"
  const PolicyUriNone := PolicyUriPrefix + "None"

  /** The policy names accepted without the URI prefix (case-sensitive). */
  const BarePolicyNames: set<string> :=
    {"None", "Basic128Rsa15", "Basic256", "Basic256Sha256", "Aes128_Sha256_RsaOaep", "Aes256_Sha256_RsaPss"}

  datatype NegotiationError =
    | DiscoveryFailed(message: string)
    | InvalidPolicy(option: string)
    | InvalidMode(option: string)
    | NoSuitableEndpoint
    | UnsupportedAuth(policyUri: string, mode: SecurityMode)

  datatype PolicyChoice = AutoPolicy | ExplicitPolicy(uri: string)
  datatype ModeChoice = AutoMode | ExplicitMode(mode: SecurityMode)

  /**
   * Resolves the policy option: "auto" leaves it open, a full policy URI is
   * kept as given, one of the six bare names gets the URI prefix, and
   * anything else is an error.
   */
  function ResolvePolicy(policy: string): (r: Result<PolicyChoice, NegotiationError>)
    ensures r == Success(AutoPolicy) <==> policy == "auto"
    ensures r.Failure? <==> policy != "auto" && !HasPrefix(policy, PolicyUriPrefix) && policy !in BarePolicyNames
    ensures r.Failure? ==> r.error == InvalidPolicy(policy)
    ensures HasPrefix(policy, PolicyUriPrefix) ==> r == Success(ExplicitPolicy(policy))
    ensures policy in BarePolicyNames ==> r == Success(ExplicitPolicy(PolicyUriPrefix + policy))
    ensures r.Success? && r.value.ExplicitPolicy? ==> HasPrefix(r.value.uri, PolicyUriPrefix)
  {
    if policy == "auto" then Success(AutoPolicy)
    else if HasPrefix(policy, PolicyUriPrefix) then Success(ExplicitPolicy(policy))
    else if policy in BarePolicyNames then
      assert (PolicyUriPrefix + policy)[..|PolicyUriPrefix|] == PolicyUriPrefix;
      Success(ExplicitPolicy(PolicyUriPrefix + policy))
    else Failure(InvalidPolicy(policy))
  }

  /** Resolving a resolved policy URI gives it back unchanged. */
  lemma ResolvedPolicyIsFixedPoint(policy: string)
    requires ResolvePolicy(policy).Success? && ResolvePolicy(policy).value.ExplicitPolicy?
    ensures ResolvePolicy(ResolvePolicy(policy).value.uri) == ResolvePolicy(policy)
  {
  }

  /**
   * Resolves the mode option after lower-casing it: auto, none, sign or
   * signandencrypt; anything else is an error naming the option as given.
   */
  function ResolveMode(mode: string): (r: Result<ModeChoice, NegotiationError>)
    ensures r == Success(AutoMode) <==> ToLower(mode) == "auto"
    ensures r == Success(ExplicitMode(ModeNone)) <==> ToLower(mode) == "none"
    ensures r == Success(ExplicitMode(ModeSign)) <==> ToLower(mode) == "sign"
    ensures r == Success(ExplicitMode(ModeSignAndEncrypt)) <==> ToLower(mode) == "signandencrypt"
    ensures r.Failure? <==> ToLower(mode) !in {"auto", "none", "sign", "signandencrypt"}
    ensures r.Failure? ==> r.error == InvalidMode(mode)
    ensures r != Success(ExplicitMode(ModeInvalid))
  {
    match ToLower(mode)
    case "auto" => Success(AutoMode)
    case "none" => Success(ExplicitMode(ModeNone))
    case "sign" => Success(ExplicitMode(ModeSign))
    case "signandencrypt" => Success(ExplicitMode(ModeSignAndEncrypt))
    case _ => Failure(InvalidMode(mode))
  }

  /** Mode resolution ignores letter case: a valid option resolves like its lower-case form. */
  lemma ResolveModeIgnoresCase(mode: string)
    requires ResolveMode(mode).Success?
    ensures ResolveMode(ToLower(mode)) == ResolveMode(mode)
  {
  }

  /** Which endpoint attributes a selection scan constrains. */
  datatype Filter =
    | Unconstrained
    | ModeOnly(mode: SecurityMode)
    | PolicyOnly(policyUri: string)
    | PolicyAndMode(policyUri: string, mode: SecurityMode)

  /** The endpoint satisfies every constraint of the filter. */
  predicate Admits(f: Filter, e: Endpoint)
  {
    match f
    case Unconstrained => true
    case ModeOnly(m) => e.mode == m
    case PolicyOnly(p) => e.policyUri == p
    case PolicyAndMode(p, m) => e.policyUri == p && e.mode == m
  }

  /** Componentwise comparison: `a` is at least `b` in both mode and level. */
  predicate Dominates(a: Endpoint, b: Endpoint)
  {
    Rank(a.mode) >= Rank(b.mode) && a.level >= b.level
  }

  /**
   * One step of a scan: does `e` replace the incumbent? Without constraints
   * the test is componentwise on (mode, level); with constraints `e` must
   * match and its level must not be below the incumbent's.
   */
  predicate Replaces(f: Filter, e: Endpoint, incumbent: Option<Endpoint>)
  {
    if f.Unconstrained? then incumbent.None? || Dominates(e, incumbent.value)
    else Admits(f, e) && (incumbent.None? || e.level >= incumbent.value.level)
  }

  /**
   * The index of the endpoint a scan over `es` in discovery order ends with,
   * or None when no endpoint was ever taken.
   */
  function Select(f: Filter, es: seq<Endpoint>): (r: Option<nat>)
    ensures r.Some? ==> r.value < |es| && Admits(f, es[r.value])
    ensures r.None? <==> forall j :: 0 <= j < |es| ==> !Admits(f, es[j])
    decreases |es|
  {
    if |es| == 0 then None
    else
      var prev := Select(f, es[..|es| - 1]);
      var incumbent := if prev.Some? then Some(es[prev.value]) else None;
      if Replaces(f, es[|es| - 1], incumbent) then Some(|es| - 1) else prev
  }

  /**
   * A constrained scan ends with a matching endpoint of the highest level
   * among the matching ones, and no later matching endpoint has that level:
   * on ties the last one wins.
   */
  lemma {:induction false} FilteredSelectIsLastBest(f: Filter, es: seq<Endpoint>)
    requires !f.Unconstrained?
    requires Select(f, es).Some?
    ensures forall j :: 0 <= j < |es| && Admits(f, es[j]) ==> es[j].level <= es[Select(f, es).value].level
    ensures forall j :: Select(f, es).value < j < |es| && Admits(f, es[j]) ==> es[j].level < es[Select(f, es).value].level
    decreases |es|
  {
    var init := es[..|es| - 1];
    var last := |es| - 1;
    var k := Select(f, es).value;
    var prev := Select(f, init);
    assert forall j :: 0 <= j < |init| ==> init[j] == es[j];
    if prev.Some? {
      FilteredSelectIsLastBest(f, init);
    }
  }

  /**
   * An unconstrained scan ends with an endpoint that is componentwise at
   * least the first one, and that no later endpoint dominates.
   */
  lemma {:induction false} AutoSelectDominance(es: seq<Endpoint>)
    requires |es| > 0
    ensures Select(Unconstrained, es).Some?
    ensures Dominates(es[Select(Unconstrained, es).value], es[0])
    ensures forall j :: Select(Unconstrained, es).value < j < |es| ==> !Dominates(es[j], es[Select(Unconstrained, es).value])
    decreases |es|
  {
    var init := es[..|es| - 1];
    assert forall j :: 0 <= j < |init| ==> init[j] == es[j];
    if |init| > 0 {
      AutoSelectDominance(init);
    }
  }

  /**
   * The unconstrained scan is not a search for the highest (mode, level)
   * pair: an earlier endpoint with a higher level keeps a later one with a
   * stronger mode out, and reordering the list changes the outcome.
   */
  lemma AutoSelectDependsOnOrder()
    ensures var a := Endpoint("opc.tcp://a", PolicyUriNone, ModeNone, 5, []);
            var b := Endpoint("opc.tcp://b", PolicyUriPrefix + "Basic256Sha256", ModeSignAndEncrypt, 3, []);
            && Select(Unconstrained, [a, b]) == Some(0)
            && Select(Unconstrained, [b, a]) == Some(0)
  {
  }

  /** With the mode fixed to Sign, the Sign endpoint of level 3 wins over Sign at level 1 and None at level 9. */
  lemma ModeOnlyScanExample()
    ensures var es := [Endpoint("opc.tcp://a", PolicyUriNone, ModeSign, 1, []),
                       Endpoint("opc.tcp://b", PolicyUriNone, ModeSign, 3, []),
                       Endpoint("opc.tcp://c", PolicyUriNone, ModeNone, 9, [])];
            Select(ModeOnly(ModeSign), es) == Some(1)
  {
  }

  /** Either option names security None, which then applies to both policy and mode. */
  predicate ForcesNone(cfg: Config.ServerConfig)
  {
    || ResolveMode(cfg.secMode) == Success(ExplicitMode(ModeNone))
    || ResolvePolicy(cfg.secPolicy) == Success(ExplicitPolicy(PolicyUriNone))
  }

  /**
   * The filter the source's scan uses. The mode and policy fields count as
   * "auto" only when they are exactly "auto" (an explicit choice blanks the
   * field first), so a mode "Auto" resolves as automatic yet keeps the mode
   * filter on, with the unset mode. A None mode or the None policy URI
   * turns both into None.
   */
  function Plan(cfg: Config.ServerConfig): (r: Result<Filter, NegotiationError>)
    ensures ResolvePolicy(cfg.secPolicy).Failure? ==> r == Failure(ResolvePolicy(cfg.secPolicy).error)
    ensures ResolvePolicy(cfg.secPolicy).Success? && ResolveMode(cfg.secMode).Failure? ==> r == Failure(ResolveMode(cfg.secMode).error)
    ensures r.Success? <==> ResolvePolicy(cfg.secPolicy).Success? && ResolveMode(cfg.secMode).Success?
    ensures r.Success? ==> (r.value.Unconstrained? <==> cfg.secPolicy == "auto" && cfg.secMode == "auto")
    ensures r.Success? ==> (r.value.ModeOnly? <==> cfg.secPolicy == "auto" && cfg.secMode != "auto")
    ensures r.Success? ==> (r.value.PolicyOnly? <==> cfg.secPolicy != "auto" && cfg.secMode == "auto")
    ensures r.Success? && r.value.PolicyAndMode? ==> (r.value.policyUri == PolicyUriNone <==> r.value.mode == ModeNone)
    ensures r.Success? && (r.value.ModeOnly? || r.value.PolicyAndMode?) && ForcesNone(cfg) ==> r.value.mode == ModeNone
    ensures r.Success? && (r.value.ModeOnly? || r.value.PolicyAndMode?) && !ForcesNone(cfg) ==>
      (if ResolveMode(cfg.secMode).value.ExplicitMode? then r.value.mode == ResolveMode(cfg.secMode).value.mode
       else r.value.mode == ModeInvalid)
    ensures r.Success? && (r.value.PolicyOnly? || r.value.PolicyAndMode?) && ForcesNone(cfg) ==> r.value.policyUri == PolicyUriNone
    ensures r.Success? && (r.value.PolicyOnly? || r.value.PolicyAndMode?) && !ForcesNone(cfg) ==>
      ResolvePolicy(cfg.secPolicy).value.ExplicitPolicy? && r.value.policyUri == ResolvePolicy(cfg.secPolicy).value.uri
  {
    match ResolvePolicy(cfg.secPolicy)
    case Failure(e) => Failure(e)
    case Success(pc) =>
      match ResolveMode(cfg.secMode)
      case Failure(e) => Failure(e)
      case Success(mc) =>
        var policy := if pc.ExplicitPolicy? then pc.uri else "";
        var mode := if mc.ExplicitMode? then mc.mode else ModeInvalid;
        var forceNone := mode == ModeNone || policy == PolicyUriNone;
        var p := if forceNone then PolicyUriNone else policy;
        var m := if forceNone then ModeNone else mode;
        var modeAuto := cfg.secMode == "auto";
        var policyAuto := cfg.secPolicy == "auto";
        if modeAuto && policyAuto then Success(Unconstrained)
        else if !modeAuto && policyAuto then Success(ModeOnly(m))
        else if modeAuto && !policyAuto then Success(PolicyOnly(p))
        else Success(PolicyAndMode(p, m))
  }

  /** Security None is all or nothing: naming it for either option constrains the scan to None. */
  lemma ExplicitNoneForcesNone(cfg: Config.ServerConfig)
    requires Plan(cfg).Success?
    requires cfg.secPolicy in {"None", PolicyUriNone} || ToLower(cfg.secMode) == "none"
    ensures cfg.secMode != "auto" ==> Plan(cfg).value.ModeOnly? || Plan(cfg).value.PolicyAndMode?
    ensures cfg.secMode != "auto" ==> Plan(cfg).value.mode == ModeNone
    ensures cfg.secPolicy != "auto" ==> Plan(cfg).value.PolicyOnly? || Plan(cfg).value.PolicyAndMode?
    ensures cfg.secPolicy != "auto" ==> Plan(cfg).value.policyUri == PolicyUriNone
  {
  }

  /** A mixed-case "Auto" mode with an automatic policy filters on the unset mode. */
  lemma MixedCaseAutoFiltersUnsetMode(cfg: Config.ServerConfig)
    requires cfg.secPolicy == "auto" && cfg.secMode == "Auto"
    ensures Plan(cfg) == Success(ModeOnly(ModeInvalid))
  {
  }

  /** The chosen endpoint and the token type derived from the auth option. */
  datatype Negotiated = Negotiated(endpoint: Endpoint, token: TokenType)

  /** The outcome of a negotiation and the option record as it is left. */
  datatype Negotiation = Negotiation(result: Result<Negotiated, NegotiationError>, after: Config.ServerConfig)

  /** The options as the source leaves them: only policy and mode can change. */
  function After(cfg: Config.ServerConfig, policyOk: bool, modeCleared: bool, restored: bool): Config.ServerConfig
  {
    var policy := if restored || !policyOk || cfg.secPolicy == "auto" then cfg.secPolicy else "";
    cfg.(secPolicy := policy, secMode := if modeCleared then "" else cfg.secMode)
  }

  /**
   * `clientSecurityOptions` as written: discovery, option resolution, one
   * scan, then the chosen endpoint with the token type of the auth option.
   * The source also checks that the endpoint accepts that token type but
   * tests a stale error variable instead of the check's result, so the
   * check never fails negotiation. The policy option is restored after a
   * scan; an invalid mode returns before that, leaving an explicit policy
   * blanked; an explicit mode stays blanked.
   */
  function SecurityOptions(cfg: Config.ServerConfig, discovered: Result<seq<Endpoint>, string>, tokenOf: string -> TokenType): (n: Negotiation)
    ensures discovered.Failure? ==> n == Negotiation(Failure(DiscoveryFailed(discovered.error)), cfg)
    ensures discovered.Success? && Plan(cfg).Failure? ==> n.result == Failure(Plan(cfg).error)
    ensures discovered.Success? && Plan(cfg).Success? ==>
      (n.result.Success? <==> exists j :: 0 <= j < |discovered.value| && Admits(Plan(cfg).value, discovered.value[j]))
    ensures discovered.Success? && Plan(cfg).Success? && n.result.Failure? ==> n.result.error == NoSuitableEndpoint
    ensures n.result.Success? ==>
      && discovered.Success?
      && n.result.value.endpoint in discovered.value
      && Admits(Plan(cfg).value, n.result.value.endpoint)
      && n.result.value.endpoint == discovered.value[Select(Plan(cfg).value, discovered.value).value]
      && n.result.value.token == tokenOf(cfg.authMode)
    ensures n.after.(secPolicy := cfg.secPolicy, secMode := cfg.secMode) == cfg
    ensures n.after.secPolicy ==
      if n.result.Failure? && n.result.error.InvalidMode? && cfg.secPolicy != "auto" then "" else cfg.secPolicy
    ensures n.after.secMode ==
      if discovered.Success? && Plan(cfg).Success? && ResolveMode(cfg.secMode).value.ExplicitMode? then "" else cfg.secMode
  {
    if discovered.Failure? then Negotiation(Failure(DiscoveryFailed(discovered.error)), cfg)
    else
      var es := discovered.value;
      var token := tokenOf(cfg.authMode);
      var policyOk := ResolvePolicy(cfg.secPolicy).Success?;
      var modeCleared := policyOk && ResolveMode(cfg.secMode).Success? && ResolveMode(cfg.secMode).value.ExplicitMode?;
      match Plan(cfg)
      case Failure(e) => Negotiation(Failure(e), After(cfg, policyOk, modeCleared, false))
      case Success(f) =>
        var after := After(cfg, policyOk, modeCleared, true);
        match Select(f, es)
        case None => Negotiation(Failure(NoSuitableEndpoint), after)
        case Some(k) => Negotiation(Success(Negotiated(es[k], token)), after)
  }

  /**
   * With a constrained scan the negotiated endpoint has the highest level
   * among the matching ones, and it is the last matching endpoint of that
   * level in discovery order.
   */
  lemma NegotiationPicksHighestLevel(cfg: Config.ServerConfig, es: seq<Endpoint>, tokenOf: string -> TokenType)
    requires Plan(cfg).Success? && !Plan(cfg).value.Unconstrained?
    requires exists j :: 0 <= j < |es| && Admits(Plan(cfg).value, es[j])
    ensures var r := SecurityOptions(cfg, Success(es), tokenOf).result;
      && r.Success?
      && (forall j :: 0 <= j < |es| && Admits(Plan(cfg).value, es[j]) ==> es[j].level <= r.value.endpoint.level)
      && exists k :: (
        && 0 <= k < |es|
        && es[k] == r.value.endpoint
        && forall j :: k < j < |es| && Admits(Plan(cfg).value, es[j]) ==> es[j].level < es[k].level)
  {
    FilteredSelectIsLastBest(Plan(cfg).value, es);
    var k := Select(Plan(cfg).value, es).value;
    assert es[k] == SecurityOptions(cfg, Success(es), tokenOf).result.value.endpoint;
  }

  /**
   * With both options "auto" and a non-empty discovery list, negotiation
   * succeeds with an endpoint at least as strong as the first one in both
   * mode and level, and no later endpoint is at least as strong as it.
   */
  lemma NegotiationAutoDominance(cfg: Config.ServerConfig, es: seq<Endpoint>, tokenOf: string -> TokenType)
    requires cfg.secPolicy == "auto" && cfg.secMode == "auto"
    requires |es| > 0
    ensures SecurityOptions(cfg, Success(es), tokenOf).result.Success?
    ensures exists k :: (
      && 0 <= k < |es|
      && es[k] == SecurityOptions(cfg, Success(es), tokenOf).result.value.endpoint
      && Dominates(es[k], es[0])
      && forall j :: k < j < |es| ==> !Dominates(es[j], es[k]))
  {
    assert Plan(cfg) == Success(Unconstrained);
    AutoSelectDominance(es);
    var k := Select(Unconstrained, es).value;
    assert es[k] == SecurityOptions(cfg, Success(es), tokenOf).result.value.endpoint;
  }

  /** An empty discovery list always ends in "no suitable endpoint", with the policy restored. */
  lemma EmptyDiscoveryFails(cfg: Config.ServerConfig, tokenOf: string -> TokenType)
    requires Plan(cfg).Success?
    ensures SecurityOptions(cfg, Success([]), tokenOf).result == Failure(NoSuitableEndpoint)
    ensures SecurityOptions(cfg, Success([]), tokenOf).after.secPolicy == cfg.secPolicy
  {
  }

  /** True when some endpoint with this policy and mode accepts the token type. */
  predicate Supports(e: Endpoint, policyUri: string, mode: SecurityMode, token: TokenType)
  {
    e.mode == mode && e.policyUri == policyUri && token in e.tokens
  }

  /** `validateEndpointConfig`: passes iff some endpoint with the policy and mode lists the token type. */
  function ValidateEndpointConfig(es: seq<Endpoint>, policyUri: string, mode: SecurityMode, token: TokenType): (r: Outcome<NegotiationError>)
    ensures r.Pass? <==> exists j :: 0 <= j < |es| && Supports(es[j], policyUri, mode, token)
    ensures r.Fail? ==> r.error == UnsupportedAuth(policyUri, mode)
    decreases |es|
  {
    if |es| == 0 then Fail(UnsupportedAuth(policyUri, mode))
    else if Supports(es[0], policyUri, mode, token) then Pass
    else
      var rest := ValidateEndpointConfig(es[1..], policyUri, mode, token);
      assert forall j :: 0 <= j < |es[1..]| ==> es[1..][j] == es[j + 1];
      rest
  }

  /** Negotiation as written succeeds or fails the same way whatever token type the auth option maps to. */
  lemma AuthNeverDecidesNegotiation(cfg: Config.ServerConfig, discovered: Result<seq<Endpoint>, string>, t1: string -> TokenType, t2: string -> TokenType)
    ensures SecurityOptions(cfg, discovered, t1).result.Success? == SecurityOptions(cfg, discovered, t2).result.Success?
    ensures SecurityOptions(cfg, discovered, t1).after == SecurityOptions(cfg, discovered, t2).after
  {
  }

  /** An input on which the as-written negotiation succeeds although the endpoint accepts no token type at all. */
  lemma AuthCheckIgnored()
    ensures var cfg := Config.ServerConfig("opc.tcp://plc", "", "", "None", "auto", "Anonymous", "", "");
            var e := Endpoint("opc.tcp://plc", PolicyUriNone, ModeNone, 0, []);
            && SecurityOptions(cfg, Success([e]), _ => AnonymousToken).result == Success(Negotiated(e, AnonymousToken))
            && ValidateEndpointConfig([e], PolicyUriNone, ModeNone, AnonymousToken).Fail?
  {
  }

  /**
   * Negotiation with the token check taking effect, as the error message at
   * that point of the source intends: a chosen endpoint whose policy and
   * mode no endpoint offers with the requested token type is refused.
   */
  function SecurityOptionsChecked(cfg: Config.ServerConfig, discovered: Result<seq<Endpoint>, string>, tokenOf: string -> TokenType): (n: Negotiation)
    ensures n.after == SecurityOptions(cfg, discovered, tokenOf).after
    ensures SecurityOptions(cfg, discovered, tokenOf).result.Failure? ==> n == SecurityOptions(cfg, discovered, tokenOf)
    ensures n.result.Success? ==> n.result == SecurityOptions(cfg, discovered, tokenOf).result
    ensures n.result.Success? <==>
      && SecurityOptions(cfg, discovered, tokenOf).result.Success?
      && ValidateEndpointConfig(discovered.value, SecurityOptions(cfg, discovered, tokenOf).result.value.endpoint.policyUri,
                                SecurityOptions(cfg, discovered, tokenOf).result.value.endpoint.mode, tokenOf(cfg.authMode)).Pass?
    ensures n.result.Success? ==>
      exists j :: 0 <= j < |discovered.value| &&
        Supports(discovered.value[j], n.result.value.endpoint.policyUri, n.result.value.endpoint.mode, tokenOf(cfg.authMode))
    ensures SecurityOptions(cfg, discovered, tokenOf).result.Success? && n.result.Failure? ==>
      n.result.error == UnsupportedAuth(SecurityOptions(cfg, discovered, tokenOf).result.value.endpoint.policyUri,
                                        SecurityOptions(cfg, discovered, tokenOf).result.value.endpoint.mode)
  {
    var n := SecurityOptions(cfg, discovered, tokenOf);
    if n.result.Failure? then n
    else
      var chosen := n.result.value.endpoint;
      match ValidateEndpointConfig(discovered.value, chosen.policyUri, chosen.mode, n.result.value.token)
      case Pass => n
      case Fail(e) => n.(result := Failure(e))
  }

  /** Client options, in the order they are handed to the library. */
  datatype AuthOption = AnonymousAuth | UserNameAuth(username: string, password: string) | CertificateFiles(certPath: string, keyPath: string)

  datatype ClientOption =
    | Auth(auth: AuthOption)
    | Security(chosen: Negotiated)
    | Lifetime(minutes: nat)
    | RequestTimeout(seconds: nat)
    | AutoReconnect(enabled: bool)

  const SessionLifetimeMinutes: nat := 10
  const RequestTimeoutSeconds: nat := 5

  /** What the client is built from: the configured URL, its options, the logged negotiation error, the options record afterwards. */
  datatype ClientPlan = ClientPlan(endpointUrl: string, options: seq<ClientOption>, negotiationError: Option<NegotiationError>, after: Config.ServerConfig)

  /** `getClientWithOptions`: the given options, then the negotiated security if any, then the fixed session policy. */
  function ClientWithOptions(cfg: Config.ServerConfig, opts: seq<ClientOption>, discovered: Result<seq<Endpoint>, string>, tokenOf: string -> TokenType): (p: ClientPlan)
    ensures p.endpointUrl == cfg.endpoint
    ensures |opts| + 3 <= |p.options| <= |opts| + 4
    ensures p.options[..|opts|] == opts
    ensures p.options[|p.options| - 3..] == [Lifetime(SessionLifetimeMinutes), RequestTimeout(RequestTimeoutSeconds), AutoReconnect(true)]
    ensures SecurityOptions(cfg, discovered, tokenOf).result.Success? ==>
      |p.options| == |opts| + 4 && p.options[|opts|] == Security(SecurityOptions(cfg, discovered, tokenOf).result.value) && p.negotiationError.None?
    ensures SecurityOptions(cfg, discovered, tokenOf).result.Failure? ==>
      |p.options| == |opts| + 3 && p.negotiationError == Some(SecurityOptions(cfg, discovered, tokenOf).result.error)
    ensures p.after == SecurityOptions(cfg, discovered, tokenOf).after
  {
    var n := SecurityOptions(cfg, discovered, tokenOf);
    var security := if n.result.Success? then [Security(n.result.value)] else [];
    var err := if n.result.Failure? then Some(n.result.error) else None;
    ClientPlan(cfg.endpoint, opts + security + [Lifetime(SessionLifetimeMinutes), RequestTimeout(RequestTimeoutSeconds), AutoReconnect(true)], err, n.after)
  }

  /** The options negotiation sees: an auth option other than "Certificate" or "UserName" becomes "Anonymous". */
  function EffectiveOptions(cfg: Config.ServerConfig): Config.ServerConfig
  {
    if cfg.authMode in {"Certificate", "UserName"} then cfg else cfg.(authMode := "Anonymous")
  }

  /**
   * `NewClientFromServerConfig`: "Certificate" and "UserName" pick their
   * own credentials; any other auth option is rewritten to "Anonymous"
   * before negotiation. A client is always produced: a negotiation error is
   * only logged and the client then carries no security option.
   */
  function NewClientFromServerConfig(cfg: Config.ServerConfig, discovered: Result<seq<Endpoint>, string>, tokenOf: string -> TokenType): (p: ClientPlan)
    ensures p.endpointUrl == cfg.endpoint
    ensures 4 <= |p.options| <= 5
    ensures p.options[|p.options| - 3..] == [Lifetime(10), RequestTimeout(5), AutoReconnect(true)]
    ensures cfg.authMode == "Certificate" ==> p.options[0] == Auth(CertificateFiles(cfg.certPath, cfg.keyPath))
    ensures cfg.authMode == "UserName" ==> p.options[0] == Auth(UserNameAuth(cfg.username, cfg.password))
    ensures cfg.authMode !in {"Certificate", "UserName"} ==> p.options[0] == Auth(AnonymousAuth) && p.after.authMode == "Anonymous"
    ensures cfg.authMode in {"Certificate", "UserName"} ==> p.after.authMode == cfg.authMode
    ensures p.negotiationError.None? <==> |p.options| == 5
    ensures |p.options| == 5 ==>
      && p.options[1].Security?
      && p.options[1].chosen.token == tokenOf(if cfg.authMode in {"Certificate", "UserName"} then cfg.authMode else "Anonymous")
    ensures discovered.Success? && Plan(cfg).Success? && |p.options| == 5 ==> p.options[1].chosen.endpoint in discovered.value
    ensures var n := SecurityOptions(EffectiveOptions(cfg), discovered, tokenOf);
      && (|p.options| == 5 <==> n.result.Success?)
      && (n.result.Success? ==> p.options[1] == Security(n.result.value))
      && (n.result.Failure? ==> p.negotiationError == Some(n.result.error))
      && p.after == n.after
  {
    if cfg.authMode == "Certificate" then
      ClientWithOptions(cfg, [Auth(CertificateFiles(cfg.certPath, cfg.keyPath))], discovered, tokenOf)
    else if cfg.authMode == "UserName" then
      ClientWithOptions(cfg, [Auth(UserNameAuth(cfg.username, cfg.password))], discovered, tokenOf)
    else
      ClientWithOptions(cfg.(authMode := "Anonymous"), [Auth(AnonymousAuth)], discovered, tokenOf)
  }
}

=== FILE: collector.dfy ===
/**
 * The metric cache and the poll walk (collector/collector.go). Node-id
 * parsing, the batched read and the exposition library's acceptance of a
 * sample are oracles; values and durations are abstract.
 */
module Collector {
  import opened Wrappers
  import Config

  datatype ValueType = CounterValue | GaugeValue | UntypedValue

  /** `getMetricValueType`: exact, case-sensitive words; anything unknown is untyped. */
  function MetricValueType(typ: string): (t: ValueType)
    ensures t == CounterValue <==> typ == "counter"
    ensures t == GaugeValue <==> typ in {"gauge", "Float", "Double"}
    ensures t == UntypedValue <==> typ !in {"counter", "gauge", "Float", "Double"}
  {
    match typ
    case "counter" => CounterValue
    case "gauge" => GaugeValue
    case "Float" => GaugeValue
    case "Double" => GaugeValue
    case _ => UntypedValue
  }

  /** An exposition descriptor: metric name, help text and label names. */
  datatype Desc = Desc(fqName: string, help: string, labelNames: seq<string>)

  /** A metric with its label map spread into parallel key and value sequences. */
  datatype MetricInfo = MetricInfo(
    name: string,
    desc: Desc,
    typ: ValueType,
    labels: map<string, string>,
    labelKeys: seq<string>,
    labelValues: seq<string>)

  /**
   * The key and value sequences list every label exactly once, pair up
   * positionally, and the descriptor names the keys in the same order.
   */
  predicate LabelsSpread(m: MetricInfo)
  {
    && |m.labelKeys| == |m.labelValues|
    && m.desc.labelNames == m.labelKeys
    && (forall i :: 0 <= i < |m.labelKeys| ==> m.labelKeys[i] in m.labels && m.labels[m.labelKeys[i]] == m.labelValues[i])
    && (forall k :: k in m.labels ==> k in m.labelKeys)
    && (forall i, j :: 0 <= i < j < |m.labelKeys| ==> m.labelKeys[i] != m.labelKeys[j])
  }

  /**
   * `newMetric`. The keys come out in map iteration order, which is
   * arbitrary; each key is chosen nondeterministically here.
   */
  method NewMetric(name: string, help: string, typ: ValueType, labels: map<string, string>) returns (m: MetricInfo)
    ensures m.name == name && m.desc.fqName == name && m.desc.help == help
    ensures m.typ == typ && m.labels == labels
    ensures LabelsSpread(m)
    ensures |m.labelKeys| == |labels|
  {
    var keys: seq<string> := [];
    var values: seq<string> := [];
    var rest := labels.Keys;
    while rest != {}
      invariant rest <= labels.Keys
      invariant |keys| == |values|
      invariant forall i :: 0 <= i < |keys| ==> keys[i] in labels && labels[keys[i]] == values[i]
      invariant forall i :: 0 <= i < |keys| ==> keys[i] !in rest
      invariant forall k :: k in labels && k !in rest ==> k in keys
      invariant forall i, j :: 0 <= i < j < |keys| ==> keys[i] != keys[j]
      invariant |keys| + |rest| == |labels|
      decreases rest
    {
      var k :| k in rest;
      keys := keys + [k];
      values := values + [labels[k]];
      rest := rest - {k};
    }
    m := MetricInfo(name, Desc(name, help, keys), typ, labels, keys, values);
  }

  /** The structured node address the parsing oracle produces; the model never looks inside. */
  datatype NodeId = NodeId(namespace: nat, identifier: string)

  /** `ua.ParseNodeID`, an oracle. */
  type ParseNodeId = string -> Result<NodeId, string>

  datatype ReadValueId = ReadValueId(node: NodeId)

  /** One cache entry: the configured node id, its read handle and the metric. */
  datatype CacheEntry = CacheEntry(nodeId: string, read: ReadValueId, metric: MetricInfo)

  /** The collector's state: the metric cache, the four statistics metrics and the error descriptor. */
  datatype Collector = Collector(cache: seq<CacheEntry>, stats: seq<MetricInfo>, errorDesc: Desc)

  /** Entry `e` was built from metric `m` with the parsing oracle. */
  predicate BuiltFrom(e: CacheEntry, m: Config.Metric, parse: ParseNodeId)
  {
    && parse(m.nodeId).Success?
    && e.nodeId == m.nodeId
    && e.read == ReadValueId(parse(m.nodeId).value)
    && e.metric.name == m.name
    && e.metric.desc.fqName == m.name
    && e.metric.desc.help == m.help
    && e.metric.typ == MetricValueType(m.typ)
    && e.metric.labels == m.labels
    && LabelsSpread(e.metric)
  }

  /** Every node id parses. */
  predicate AllParse(metrics: seq<Config.Metric>, parse: ParseNodeId)
  {
    forall i :: 0 <= i < |metrics| ==> parse(metrics[i].nodeId).Success?
  }

  /**
   * `loadMetricsCache`: builds one entry per metric in input order. The
   * first node id that fails to parse aborts the build with an error and
   * the old cache is kept.
   */
  method LoadMetricsCache(cache: seq<CacheEntry>, metrics: seq<Config.Metric>, parse: ParseNodeId)
    returns (cache': seq<CacheEntry>, err: Option<string>)
    ensures err.None? <==> AllParse(metrics, parse)
    ensures err.Some? ==> cache' == cache
    ensures err.Some? ==>
      exists i ::
        && 0 <= i < |metrics|
        && parse(metrics[i].nodeId).Failure?
        && err.value == "invalid node id: " + parse(metrics[i].nodeId).error
        && AllParse(metrics[..i], parse)
    ensures err.None? ==> |cache'| == |metrics|
    ensures err.None? ==> forall i :: 0 <= i < |metrics| ==> BuiltFrom(cache'[i], metrics[i], parse)
  {
    var mm: seq<CacheEntry> := [];
    var i := 0;
    while i < |metrics|
      invariant 0 <= i <= |metrics|
      invariant |mm| == i
      invariant AllParse(metrics[..i], parse)
      invariant forall j :: 0 <= j < i ==> BuiltFrom(mm[j], metrics[j], parse)
    {
      var m := metrics[i];
      match parse(m.nodeId)
      case Failure(e) =>
        return cache, Some("invalid node id: " + e);
      case Success(node) =>
        var metric := NewMetric(m.name, m.help, MetricValueType(m.typ), m.labels);
        mm := mm + [CacheEntry(m.nodeId, ReadValueId(node), metric)];
        assert metrics[..i + 1] == metrics[..i] + [m];
        i := i + 1;
    }
    assert metrics[..i] == metrics;
    return mm, None;
  }

  /** `ReloadMetrics`: rebuilds the cache, discarding the error; the statistics are untouched. */
  method ReloadMetrics(c: Collector, mc: Config.MetricsConfig, parse: ParseNodeId) returns (c': Collector)
    ensures c'.stats == c.stats && c'.errorDesc == c.errorDesc
    ensures !AllParse(mc.metrics, parse) ==> c'.cache == c.cache
    ensures AllParse(mc.metrics, parse) ==> |c'.cache| == |mc.metrics|
    ensures AllParse(mc.metrics, parse) ==> forall i :: 0 <= i < |mc.metrics| ==> BuiltFrom(c'.cache[i], mc.metrics[i], parse)
  {
    var cache, _ := LoadMetricsCache(c.cache, mc.metrics, parse);
    c' := c.(cache := cache);
  }

  const WalkDurationName := "opcua_scrape_walk_duration_seconds"
  const RespReturnedName := "opcua_scrape_resp_returned"
  const ScrapeDurationName := "opcua_scrape_duration_seconds"
  const ReadDurationName := "opcua_client_read_duration_seconds"

  /** The statistics metric names, in registration order. */
  const StatsNames: seq<string> := [WalkDurationName, RespReturnedName, ScrapeDurationName, ReadDurationName]

  /** Their help texts, in the same order. */
  const StatsHelps: seq<string> := [
    "Time OPCUA walk/bulkwalk took.",
    "RESPs returned from walk.",
    "Total OPCUA time scrape took (walk and processing).",
    "Time OPCUA to reconnect took."]

  const ErrorDesc := Desc("opcua_error", "error scraping target", [])

  /**
   * `NewCollector`, without the client: the cache is loaded from the
   * configuration, then four label-free gauge statistics are registered.
   */
  method NewCollector(mc: Config.MetricsConfig, parse: ParseNodeId) returns (c: Collector)
    ensures |c.stats| == 4
    ensures forall i :: 0 <= i < 4 ==> c.stats[i].name == StatsNames[i] && c.stats[i].typ == GaugeValue && c.stats[i].labelKeys == []
    ensures forall i :: 0 <= i < 4 ==> c.stats[i].desc == Desc(StatsNames[i], StatsHelps[i], [])
    ensures forall i :: 0 <= i < 4 ==> LabelsSpread(c.stats[i])
    ensures c.errorDesc == ErrorDesc
    ensures !AllParse(mc.metrics, parse) ==> c.cache == []
    ensures AllParse(mc.metrics, parse) ==> |c.cache| == |mc.metrics|
    ensures AllParse(mc.metrics, parse) ==> forall i :: 0 <= i < |mc.metrics| ==> BuiltFrom(c.cache[i], mc.metrics[i], parse)
  {
    c := Collector([], [], Desc("", "", []));
    c := ReloadMetrics(c, mc, parse);
    var walk := NewMetric(WalkDurationName, StatsHelps[0], GaugeValue, map[]);
    var resp := NewMetric(RespReturnedName, StatsHelps[1], GaugeValue, map[]);
    var total := NewMetric(ScrapeDurationName, StatsHelps[2], GaugeValue, map[]);
    var read := NewMetric(ReadDurationName, StatsHelps[3], GaugeValue, map[]);
    c := c.(stats := c.stats + [walk, resp, total, read], errorDesc := ErrorDesc);
  }

  /** `Describe`: one descriptor per cache entry in order, then one per statistics metric. */
  function Describe(c: Collector): (descs: seq<Desc>)
    ensures |descs| == |c.cache| + |c.stats|
    ensures forall i :: 0 <= i < |c.cache| ==> descs[i] == c.cache[i].metric.desc
    ensures forall i :: 0 <= i < |c.stats| ==> descs[|c.cache| + i] == c.stats[i].desc
  {
    seq(|c.cache|, i requires 0 <= i < |c.cache| => c.cache[i].metric.desc) +
    seq(|c.stats|, i requires 0 <= i < |c.stats| => c.stats[i].desc)
  }

  datatype TimestampsToReturn = TimestampsSource | TimestampsServer | TimestampsBoth | TimestampsNeither

  datatype ReadRequest = ReadRequest(maxAge: nat, nodesToRead: seq<ReadValueId>, timestamps: TimestampsToReturn)

  /** A read value as it arrives; its conversion to a float is not modelled. */
  datatype Variant = Variant(encoded: seq<Config.byte>)

  const StatusOK: nat := 0

  datatype DataValue = DataValue(status: nat, value: Variant)

  datatype ReadResponse = ReadResponse(results: seq<DataValue>)

  /** The session's batched read, an oracle. */
  type ReadService = ReadRequest -> Result<ReadResponse, string>

  /** The clocks behind the duration samples. */
  datatype Clock = ReadClock | WalkClock | TotalClock

  /** A sample value: a read value, an elapsed time, or a plain number. */
  datatype SampleValue = Reading(v: Variant) | Elapsed(clock: Clock) | Number(n: int)

  /** The request of `scrapeTarget`: every cached node in cache order, max age 2000 ms, both time stamps. */
  function ScrapeRequest(cache: seq<CacheEntry>): (req: ReadRequest)
    ensures req.maxAge == 2000 && req.timestamps == TimestampsBoth
    ensures |req.nodesToRead| == |cache|
    ensures forall i :: 0 <= i < |cache| ==> req.nodesToRead[i] == cache[i].read
  {
    ReadRequest(2000, seq(|cache|, i requires 0 <= i < |cache| => cache[i].read), TimestampsBoth)
  }

  datatype Scrape = Scraped(response: ReadResponse, readDuration: SampleValue) | ScrapeFailed(error: string, readDuration: SampleValue)

  /** `scrapeTarget`: one read of the request; on error the duration is -1. */
  function ScrapeTarget(cache: seq<CacheEntry>, read: ReadService): (s: Scrape)
    ensures s.ScrapeFailed? <==> read(ScrapeRequest(cache)).Failure?
    ensures s.ScrapeFailed? ==> s.error == read(ScrapeRequest(cache)).error && s.readDuration == Number(-1)
    ensures s.Scraped? ==> s.response == read(ScrapeRequest(cache)).value && s.readDuration == Elapsed(ReadClock)
  {
    match read(ScrapeRequest(cache))
    case Failure(e) => ScrapeFailed(e, Number(-1))
    case Success(resp) => Scraped(resp, Elapsed(ReadClock))
  }

  datatype SampleError =
    | ScrapeError(message: string)
    | BadStatus(metric: string, labels: map<string, string>, status: nat)
    | Rejected(metric: string, labels: map<string, string>)

  /** An emitted sample: a value with its descriptor, or an invalid sample carrying an error. */
  datatype Sample =
    | ConstSample(desc: Desc, typ: ValueType, value: SampleValue, labelValues: seq<string>)
    | InvalidSample(desc: Desc, cause: SampleError)

  /** Whether the exposition library accepts a sample for a metric, an oracle. */
  type Accepts = (MetricInfo, SampleValue) -> bool

  /** `getMetricWithValue`: a value sample, or an error sample when the library refuses it. */
  function MetricWithValue(c: Collector, m: MetricInfo, v: SampleValue, accepts: Accepts): (s: Sample)
    ensures s.ConstSample? <==> accepts(m, v)
    ensures s.ConstSample? ==> s.desc == m.desc && s.typ == m.typ && s.value == v && s.labelValues == m.labelValues
    ensures s.InvalidSample? ==> s.desc == c.errorDesc && s.cause == Rejected(m.name, m.labels)
  {
    if accepts(m, v) then ConstSample(m.desc, m.typ, v, m.labelValues)
    else InvalidSample(c.errorDesc, Rejected(m.name, m.labels))
  }

  /** `getOpcuaValueFromIndex`: the value at `idx`, or the status when it is not OK. */
  function ValueFromIndex(resp: ReadResponse, idx: nat): (r: Result<Variant, nat>)
    requires idx < |resp.results|
    ensures r.Failure? <==> resp.results[idx].status != StatusOK
    ensures r.Failure? ==> r.error == resp.results[idx].status
    ensures r.Success? ==> r.value == resp.results[idx].value
  {
    var r := resp.results[idx];
    if r.status != StatusOK then Failure(r.status) else Success(r.value)
  }

  /** The sample for cache entry `idx`. */
  function EntrySample(c: Collector, resp: ReadResponse, idx: nat, accepts: Accepts): Sample
    requires idx < |c.cache| && idx < |resp.results|
  {
    var m := c.cache[idx].metric;
    match ValueFromIndex(resp, idx)
    case Failure(status) => InvalidSample(c.errorDesc, BadStatus(m.name, m.labels, status))
    case Success(v) => MetricWithValue(c, m, Reading(v), accepts)
  }

  /** The value of a statistics metric, chosen by name; an unknown name gets 0. */
  function StatValue(name: string, resp: ReadResponse, readDuration: SampleValue): SampleValue
  {
    if name == ReadDurationName then readDuration
    else if name == WalkDurationName then Elapsed(WalkClock)
    else if name == RespReturnedName then Number(|resp.results|)
    else if name == ScrapeDurationName then Elapsed(TotalClock)
    else Number(0)
  }

  /**
   * `Collect`: one read over the cache snapshot; a failed read gives a
   * single error sample, otherwise one sample per cache entry in order
   * followed by one per statistics metric. The response must carry a result
   * for every requested node, as the protocol promises.
   */
  function Collect(c: Collector, read: ReadService, accepts: Accepts): (samples: seq<Sample>)
    requires read(ScrapeRequest(c.cache)).Success? ==> |read(ScrapeRequest(c.cache)).value.results| >= |c.cache|
    ensures read(ScrapeRequest(c.cache)).Failure? ==>
      samples == [InvalidSample(c.errorDesc, ScrapeError(read(ScrapeRequest(c.cache)).error))]
    ensures read(ScrapeRequest(c.cache)).Success? ==> |samples| == |c.cache| + |c.stats|
    ensures read(ScrapeRequest(c.cache)).Success? ==> forall i :: 0 <= i < |c.cache| ==>
      var r := read(ScrapeRequest(c.cache)).value.results[i];
      (r.status != StatusOK <==> samples[i] == InvalidSample(c.errorDesc, BadStatus(c.cache[i].metric.name, c.cache[i].metric.labels, r.status)))
    ensures read(ScrapeRequest(c.cache)).Success? ==> forall i :: 0 <= i < |c.cache| ==>
      var r := read(ScrapeRequest(c.cache)).value.results[i];
      r.status == StatusOK ==> samples[i] == MetricWithValue(c, c.cache[i].metric, Reading(r.value), accepts)
    ensures read(ScrapeRequest(c.cache)).Success? ==> forall i :: 0 <= i < |c.stats| ==>
      samples[|c.cache| + i] == MetricWithValue(c, c.stats[i], StatValue(c.stats[i].name, read(ScrapeRequest(c.cache)).value, Elapsed(ReadClock)), accepts)
  {
    match ScrapeTarget(c.cache, read)
    case ScrapeFailed(e, _) => [InvalidSample(c.errorDesc, ScrapeError(e))]
    case Scraped(resp, readDuration) =>
      seq(|c.cache|, i requires 0 <= i < |c.cache| => EntrySample(c, resp, i, accepts)) +
      seq(|c.stats|, i requires 0 <= i < |c.stats| => MetricWithValue(c, c.stats[i], StatValue(c.stats[i].name, resp, readDuration), accepts))
  }

  /**
   * Positional correlation: with a successful read, every value sample sits
   * at the same position as its descriptor in `Describe`.
   */
  lemma CollectMatchesDescribe(c: Collector, read: ReadService, accepts: Accepts)
    requires read(ScrapeRequest(c.cache)).Success? && |read(ScrapeRequest(c.cache)).value.results| >= |c.cache|
    ensures forall i :: 0 <= i < |c.cache| + |c.stats| && Collect(c, read, accepts)[i].ConstSample? ==>
      Collect(c, read, accepts)[i].desc == Describe(c)[i]
  {
  }

  /** With a successful read, the sample for an entry with status OK is its value (if the library accepts it). */
  lemma GoodStatusGivesValue(c: Collector, read: ReadService, accepts: Accepts, i: nat)
    requires read(ScrapeRequest(c.cache)).Success? && |read(ScrapeRequest(c.cache)).value.results| >= |c.cache|
    requires i < |c.cache| && read(ScrapeRequest(c.cache)).value.results[i].status == StatusOK
    requires accepts(c.cache[i].metric, Reading(read(ScrapeRequest(c.cache)).value.results[i].value))
    ensures Collect(c, read, accepts)[i] ==
      ConstSample(c.cache[i].metric.desc, c.cache[i].metric.typ, Reading(read(ScrapeRequest(c.cache)).value.results[i].value), c.cache[i].metric.labelValues)
  {
  }

  /** The number of error samples in a sequence. */
  function ErrorCount(samples: seq<Sample>): nat
  {
    if |samples| == 0 then 0 else (if samples[0].InvalidSample? then 1 else 0) + ErrorCount(samples[1..])
  }

  /** The number of results with a status other than OK. */
  function BadCount(results: seq<DataValue>): nat
  {
    if |results| == 0 then 0 else (if results[0].status != StatusOK then 1 else 0) + BadCount(results[1..])
  }

  /**
   * When the library accepts every sample, the walk over the cache yields
   * exactly as many error samples as there are non-OK results among the
   * first |cache| results: one bad node among N gives one error sample and
   * N - 1 values.
   */
  lemma {:induction false} ErrorSamplesCountBadStatuses(c: Collector, read: ReadService, accepts: Accepts)
    requires read(ScrapeRequest(c.cache)).Success? && |read(ScrapeRequest(c.cache)).value.results| >= |c.cache|
    requires forall m, v :: accepts(m, v)
    ensures ErrorCount(Collect(c, read, accepts)[..|c.cache|]) == BadCount(read(ScrapeRequest(c.cache)).value.results[..|c.cache|])
  {
    var resp := read(ScrapeRequest(c.cache)).value;
    var walk := Collect(c, read, accepts)[..|c.cache|];
    assert forall i :: 0 <= i < |c.cache| ==> (walk[i].InvalidSample? <==> resp.results[i].status != StatusOK);
    CountsAgree(walk, resp.results[..|c.cache|]);
  }

  lemma {:induction false} CountsAgree(samples: seq<Sample>, results: seq<DataValue>)
    requires |samples| == |results|
    requires forall i :: 0 <= i < |samples| ==> (samples[i].InvalidSample? <==> results[i].status != StatusOK)
    ensures ErrorCount(samples) == BadCount(results)
    decreases |samples|
  {
    if |samples| > 0 {
      CountsAgree(samples[1..], results[1..]);
    }
  }

  /** With the standard statistics, the second statistics sample reports the number of results returned. */
  lemma RespReturnedCountsResults(c: Collector, read: ReadService, accepts: Accepts)
    requires read(ScrapeRequest(c.cache)).Success? && |read(ScrapeRequest(c.cache)).value.results| >= |c.cache|
    requires |c.stats| == 4 && forall i :: 0 <= i < 4 ==> c.stats[i].name == StatsNames[i]
    requires forall m, v :: accepts(m, v)
    ensures Collect(c, read, accepts)[|c.cache| + 1].value == Number(|read(ScrapeRequest(c.cache)).value.results|)
    ensures Collect(c, read, accepts)[|c.cache|].value == Elapsed(WalkClock)
    ensures Collect(c, read, accepts)[|c.cache| + 2].value == Elapsed(TotalClock)
    ensures Collect(c, read, accepts)[|c.cache| + 3].value == Elapsed(ReadClock)
  {
  }
}

=== FILE: config.dfy ===
/**
 * The exporter's configuration (config/config.go): the server options, the
 * metric list, its validation and its loading from a file whose contents are
 * decoded into the existing record before they are checked.
 */
module Config {
  import opened Wrappers
  import opened Text

  newtype byte = x: int | 0 <= x < 256

  /** Connection options, as given on the command line. */
  datatype ServerConfig = ServerConfig(
    endpoint: string,
    certPath: string,
    keyPath: string,
    secPolicy: string,
    secMode: string,
    authMode: string,
    username: string,
    password: string)

  /** One metric definition of the configuration file. */
  datatype Metric = Metric(name: string, help: string, nodeId: string, labels: map<string, string>, typ: string)

  datatype MetricsConfig = MetricsConfig(metrics: seq<Metric>)

  datatype Config = Config(server: ServerConfig, metricsConfig: MetricsConfig)

  /** The required fields of a metric, in the order they are checked. */
  datatype Field = NameField | HelpField | NodeValueField | TypeField

  datatype ConfigError =
    | MissingMetrics
    | MissingField(field: Field, index: nat)
    | ReadFailed(message: string)
    | UnserializeFailed(message: string)

  /** The key a missing-field message names; the node id is reported as 'nodeValue'. */
  function FieldKey(f: Field): string
  {
    match f
    case NameField => "name"
    case HelpField => "help"
    case NodeValueField => "nodeValue"
    case TypeField => "type"
  }

  /** The error text the source produces. */
  function Message(e: ConfigError): string
  {
    match e
    case MissingMetrics => "missing field 'metrics' in top configuration"
    case MissingField(f, i) => "missing field '" + FieldKey(f) + "'" + " in 'metrics' configuration of metric " + Decimal(i)
    case ReadFailed(m) => m
    case UnserializeFailed(m) => m
  }

  /** A missing node id is reported under the key 'nodeValue', with the metric's index at the end. */
  lemma NodeIdReportedAsNodeValue(i: nat)
    ensures HasPrefix(Message(MissingField(NodeValueField, i)), "missing field 'nodeValue'")
    ensures var m := Message(MissingField(NodeValueField, i)); m[|m| - |Decimal(i)|..] == Decimal(i)
  {
  }

  /** All four required fields are non-empty; labels are optional. */
  predicate Complete(m: Metric)
  {
    m.name != "" && m.help != "" && m.nodeId != "" && m.typ != ""
  }

  /** The first empty required field of `m`, checking name, help, node id, type in that order. */
  function FirstMissing(m: Metric): (f: Option<Field>)
    ensures f.None? <==> Complete(m)
    ensures f == Some(NameField) <==> m.name == ""
    ensures f == Some(HelpField) <==> m.name != "" && m.help == ""
    ensures f == Some(NodeValueField) <==> m.name != "" && m.help != "" && m.nodeId == ""
    ensures f == Some(TypeField) <==> m.name != "" && m.help != "" && m.nodeId != "" && m.typ == ""
  {
    if m.name == "" then Some(NameField)
    else if m.help == "" then Some(HelpField)
    else if m.nodeId == "" then Some(NodeValueField)
    else if m.typ == "" then Some(TypeField)
    else None
  }

  /** Checks metrics from index `i` on; the first incomplete one is reported. */
  function ValidateFrom(ms: seq<Metric>, i: nat): (r: Outcome<ConfigError>)
    requires i <= |ms|
    ensures r.Pass? <==> forall j :: i <= j < |ms| ==> Complete(ms[j])
    ensures r.Fail? ==> r.error.MissingField? && i <= r.error.index < |ms|
    ensures r.Fail? ==> forall j :: i <= j < r.error.index ==> Complete(ms[j])
    ensures r.Fail? ==> FirstMissing(ms[r.error.index]) == Some(r.error.field)
    decreases |ms| - i
  {
    if i == |ms| then Pass
    else
      match FirstMissing(ms[i])
      case Some(f) => Fail(MissingField(f, i))
      case None => ValidateFrom(ms, i + 1)
  }

  /**
   * `MetricsConfig.validate`: the list must be non-empty and every metric
   * complete; on failure the lowest incomplete index and its first empty
   * field are reported.
   */
  function Validate(mm: MetricsConfig): (r: Outcome<ConfigError>)
    ensures r.Pass? <==> |mm.metrics| > 0 && forall j :: 0 <= j < |mm.metrics| ==> Complete(mm.metrics[j])
    ensures |mm.metrics| == 0 ==> r == Fail(MissingMetrics)
    ensures r.Fail? && |mm.metrics| > 0 ==>
      && r.error.MissingField?
      && r.error.index < |mm.metrics|
      && FirstMissing(mm.metrics[r.error.index]) == Some(r.error.field)
      && forall j :: 0 <= j < r.error.index ==> Complete(mm.metrics[j])
  {
    if |mm.metrics| == 0 then Fail(MissingMetrics) else ValidateFrom(mm.metrics, 0)
  }

  /** What the file system holds at a path. */
  datatype FileState = Contents(bytes: seq<byte>) | Absent | Unreadable(message: string)

  /** The text by which a read error is recognised as a missing file. */
  const NoSuchFile := "no such file or directory"

  /** `ioutil.ReadFile`: a missing file reports Go's "no such file or directory" text. */
  function ReadFile(path: string, fs: FileState): (r: Result<seq<byte>, string>)
    ensures fs.Contents? <==> r.Success?
    ensures fs.Absent? ==> Contains(r.error, NoSuchFile)
  {
    match fs
    case Contents(b) => Success(b)
    case Absent =>
      var head := "open " + path + ": ";
      ContainsTail(head, NoSuchFile);
      Failure(head + NoSuchFile)
    case Unreadable(m) => Failure(m)
  }

  /**
   * Result of decoding bytes into an existing metrics record: the record as
   * left by the decoder (fields absent from the bytes keep their old value,
   * and a failing decode may leave it partly written) and the decoder's error.
   */
  datatype Decoded = Decoded(into: MetricsConfig, error: Option<string>)

  /** The YAML decoder, an oracle of this model. */
  type Unmarshal = (MetricsConfig, seq<byte>) -> Decoded

  datatype Loaded = Loaded(config: Config, outcome: Outcome<ConfigError>)

  /**
   * `Config.LoadMetricsConfig`. A read error whose text mentions a missing
   * file is success with nothing changed; other read errors propagate. The
   * contents are decoded into the existing metrics record first and only
   * then validated, so a validation failure leaves the new contents in place.
   */
  function LoadMetricsConfig(c: Config, path: string, fs: FileState, unmarshal: Unmarshal): (r: Loaded)
    ensures r.config.server == c.server
    ensures fs.Absent? ==> r == Loaded(c, Pass)
    ensures fs.Unreadable? ==> r.config == c
    ensures fs.Unreadable? ==> (r.outcome.Pass? <==> Contains(fs.message, NoSuchFile))
    ensures fs.Unreadable? && r.outcome.Fail? ==> r.outcome.error == ReadFailed(fs.message)
    ensures fs.Contents? ==> r.config.metricsConfig == unmarshal(c.metricsConfig, fs.bytes).into
    ensures fs.Contents? && unmarshal(c.metricsConfig, fs.bytes).error.Some? ==>
      r.outcome == Fail(UnserializeFailed(unmarshal(c.metricsConfig, fs.bytes).error.value))
    ensures fs.Contents? ==> (r.outcome.Pass? <==> unmarshal(c.metricsConfig, fs.bytes).error.None? && Validate(r.config.metricsConfig).Pass?)
    ensures fs.Contents? && unmarshal(c.metricsConfig, fs.bytes).error.None? ==> r.outcome == Validate(r.config.metricsConfig)
    ensures r.outcome.Pass? ==> r.config == c || Validate(r.config.metricsConfig).Pass?
  {
    match ReadFile(path, fs)
    case Failure(m) =>
      if Contains(m, NoSuchFile) then Loaded(c, Pass) else Loaded(c, Fail(ReadFailed(m)))
    case Success(content) =>
      var d := unmarshal(c.metricsConfig, content);
      var c' := c.(metricsConfig := d.into);
      if d.error.Some? then Loaded(c', Fail(UnserializeFailed(d.error.value)))
      else Loaded(c', Validate(c'.metricsConfig))
  }

  /**
   * `NewConfig`: the arguments go to the like-named server fields (the mode
   * precedes the policy among the arguments) and the metrics start empty;
   * building fails exactly when loading the metrics file fails.
   */
  function NewConfig(
    endpoint: string, certPath: string, keyPath: string, secMode: string, secPolicy: string,
    authMode: string, username: string, password: string, configPath: string,
    fs: FileState, unmarshal: Unmarshal): (r: Result<Config, ConfigError>)
    ensures r.Success? ==> r.value.server == ServerConfig(endpoint, certPath, keyPath, secPolicy, secMode, authMode, username, password)
    ensures r.Success? <==>
      LoadMetricsConfig(Config(ServerConfig(endpoint, certPath, keyPath, secPolicy, secMode, authMode, username, password), MetricsConfig([])), configPath, fs, unmarshal).outcome.Pass?
    ensures fs.Absent? ==> r.Success? && r.value.metricsConfig.metrics == []
    ensures var loaded := LoadMetricsConfig(Config(ServerConfig(endpoint, certPath, keyPath, secPolicy, secMode, authMode, username, password), MetricsConfig([])), configPath, fs, unmarshal);
      && (r.Success? ==> r.value == loaded.config)
      && (r.Failure? ==> Fail(r.error) == loaded.outcome)
  {
    var c := Config(ServerConfig(endpoint, certPath, keyPath, secPolicy, secMode, authMode, username, password), MetricsConfig([]));
    var loaded := LoadMetricsConfig(c, configPath, fs, unmarshal);
    if loaded.outcome.Fail? then Failure(loaded.outcome.error) else Success(loaded.config)
  }
}

=== FILE: jsonlog.dfy ===
/**
 * The JSON logger's gating (log/jsonlog/jsonlog.go): which messages reach
 * which output stream at a given verbosity. Line formatting (time stamp,
 * quoting) is not modelled; a line keeps its level label and message.
 */
module JsonLog {
  import Log

  /** The six logging entry points. */
  datatype Severity = DebugMsg | InfoMsg | WarnMsg | ErrMsg | PanicMsg | FatalMsg

  datatype Stream = Stdout | Stderr

  /** One emitted line: the level word written into it and the message. */
  datatype Line = Line(level: string, message: string)

  /** Whether the process goes on after the call: Panic unwinds, Fatal exits with status 1. */
  datatype Status = Running | Panicking | Exited(code: int)

  datatype Logger = Logger(verbosity: int, stdout: seq<Line>, stderr: seq<Line>, status: Status)

  /** A logger built from an empty configuration: verbosity 0 (Debug), nothing written. */
  function NewLogger(): (l: Logger)
    ensures l.verbosity == Log.Debug
    ensures l.stdout == [] && l.stderr == [] && l.status == Running
  {
    Logger(0, [], [], Running)
  }

  function SetVerbosity(l: Logger, verbosity: string): (r: Logger)
    ensures r.verbosity == Log.GetVerbosityFromString(verbosity)
    ensures Log.Debug <= r.verbosity <= Log.Fatal
    ensures r.stdout == l.stdout && r.stderr == l.stderr && r.status == l.status
  {
    l.(verbosity := Log.GetVerbosityFromString(verbosity))
  }

  function Debug(l: Logger, msg: string): Logger
  {
    if l.verbosity <= Log.Debug then l.(stdout := l.stdout + [Line("debug", msg)]) else l
  }

  function Info(l: Logger, msg: string): Logger
  {
    if l.verbosity <= Log.Info then l.(stdout := l.stdout + [Line("info", msg)]) else l
  }

  function Warn(l: Logger, msg: string): Logger
  {
    if l.verbosity <= Log.Warn then l.(stdout := l.stdout + [Line("warn", msg)]) else l
  }

  function Err(l: Logger, msg: string): Logger
  {
    if l.verbosity <= Log.Err then l.(stderr := l.stderr + [Line("error", msg)]) else l
  }

  function Panic(l: Logger, msg: string): Logger
  {
    l.(stderr := l.stderr + [Line("panic", msg)], status := Panicking)
  }

  function Fatal(l: Logger, msg: string): Logger
  {
    l.(stderr := l.stderr + [Line("fatal", msg)], status := Exited(1))
  }

  /** The stream each entry point writes to. */
  function Target(sev: Severity): Stream
  {
    if sev in {DebugMsg, InfoMsg, WarnMsg} then Stdout else Stderr
  }

  /** The level word each entry point writes; note "error", not the verbosity word "err". */
  function LevelWord(sev: Severity): string
  {
    match sev
    case DebugMsg => "debug"
    case InfoMsg => "info"
    case WarnMsg => "warn"
    case ErrMsg => "error"
    case PanicMsg => "panic"
    case FatalMsg => "fatal"
  }

  /** The level a message must reach; Panic and Fatal have none. */
  function Threshold(sev: Severity): int
  {
    match sev
    case DebugMsg => Log.Debug
    case InfoMsg => Log.Info
    case WarnMsg => Log.Warn
    case ErrMsg => Log.Err
    case PanicMsg => Log.Fatal + 1
    case FatalMsg => Log.Fatal + 1
  }

  /** A message passes at a verbosity not above its threshold; Panic and Fatal always pass. */
  predicate Passes(verbosity: int, sev: Severity)
  {
    sev in {PanicMsg, FatalMsg} || verbosity <= Threshold(sev)
  }

  function Lines(l: Logger, s: Stream): seq<Line>
  {
    if s == Stdout then l.stdout else l.stderr
  }

  /** Calls the entry point named by `sev`. */
  function Emit(l: Logger, sev: Severity, msg: string): (r: Logger)
    ensures r.verbosity == l.verbosity
    ensures Passes(l.verbosity, sev) ==> Lines(r, Target(sev)) == Lines(l, Target(sev)) + [Line(LevelWord(sev), msg)]
    ensures !Passes(l.verbosity, sev) ==> r == l
    ensures Target(sev) == Stdout ==> r.stderr == l.stderr
    ensures Target(sev) == Stderr ==> r.stdout == l.stdout
    ensures r.status == (match sev case PanicMsg => Panicking case FatalMsg => Exited(1) case _ => l.status)
  {
    match sev
    case DebugMsg => Debug(l, msg)
    case InfoMsg => Info(l, msg)
    case WarnMsg => Warn(l, msg)
    case ErrMsg => Err(l, msg)
    case PanicMsg => Panic(l, msg)
    case FatalMsg => Fatal(l, msg)
  }

  /** Gating is monotone: what passes at verbosity v also passes at any lower verbosity. */
  lemma GatingMonotone(v: int, v': int, sev: Severity)
    requires v' <= v
    ensures Passes(v, sev) ==> Passes(v', sev)
  {
  }

  /** At verbosity Fatal an error message is dropped, while Panic and Fatal still reach stderr. */
  lemma ErrorsSuppressedAtFatal(l: Logger, msg: string)
    requires l.verbosity == Log.Fatal
    ensures Emit(l, ErrMsg, msg) == l
    ensures Emit(l, PanicMsg, msg).stderr == l.stderr + [Line("panic", msg)]
    ensures Emit(l, FatalMsg, msg).stderr == l.stderr + [Line("fatal", msg)]
  {
  }
}

=== FILE: log.dfy ===
/** Verbosity levels and their parsing from a flag string (log/log.go). */
module Log {

  /** The levels, numbered from 0 in increasing severity. */
  const Debug: int := 0
  const Info: int := 1
  const Warn: int := 2
  const Err: int := 3
  const Fatal: int := 4

  /**
   * Maps a verbosity word to its level. The match is exact and
   * case-sensitive; every other word, including "", "error" and "DEBUG",
   * falls back to Warn.
   */
  function GetVerbosityFromString(verbosity: string): (level: int)
    ensures Debug <= level <= Fatal
    ensures level == Debug <==> verbosity == "debug"
    ensures level == Info <==> verbosity == "info"
    ensures level == Err <==> verbosity == "err"
    ensures level == Fatal <==> verbosity == "fatal"
    ensures level == Warn <==> verbosity !in {"debug", "info", "err", "fatal"}
  {
    match verbosity
    case "debug" => Debug
    case "info" => Info
    case "warn" => Warn
    case "err" => Err
    case "fatal" => Fatal
    case _ => Warn
  }

  /** The word the command line advertises for errors is not the one parsed. */
  lemma AdvertisedWordsFallBackToWarn()
    ensures GetVerbosityFromString("error") == Warn
    ensures GetVerbosityFromString("") == Warn
    ensures GetVerbosityFromString("DEBUG") == Warn
  {
  }
}

=== FILE: reload.dfy ===
/**
 * The reload path of main.go, taken one request at a time: the shared
 * configuration holder, the reload worker's answer and the HTTP handler
 * that persists a new file, asks for a reload and re-registers the
 * collector. Goroutines, channels and locks are not modelled; each step
 * runs to completion before the next.
 */
module Reload {
  import opened Wrappers
  import Config
  import Collector

  /**
   * `SafeConfig`. Readers receive the very record the loader then changes
   * in place, so a change made by a failed load is already visible.
   */
  datatype SafeConfig = SafeConfig(c: Config.Config)

  function GetConfig(sc: SafeConfig): Config.Config
  {
    sc.c
  }

  /** `SetConfig`: the holder afterwards hands out exactly the record stored. */
  function SetConfig(sc: SafeConfig, c: Config.Config): (r: SafeConfig)
    ensures GetConfig(r) == c
  {
    sc.(c := c)
  }

  /** The holder laws: reading returns what was last stored, and storing what was read changes nothing. */
  lemma HolderLaws(sc: SafeConfig, c: Config.Config)
    ensures GetConfig(SetConfig(sc, c)) == c
    ensures SetConfig(sc, GetConfig(sc)) == sc
  {
  }

  datatype Reloaded = Reloaded(sc: SafeConfig, outcome: Outcome<Config.ConfigError>)

  /**
   * `reloadConfig`: loads the metrics file into the current configuration.
   * On error it returns without calling SetConfig, but the load has written
   * into the shared record, so its new contents stay in place either way.
   */
  function ReloadConfig(sc: SafeConfig, path: string, fs: Config.FileState, unmarshal: Config.Unmarshal): (r: Reloaded)
    ensures r.outcome == Config.LoadMetricsConfig(sc.c, path, fs, unmarshal).outcome
    ensures r.sc.c.server == sc.c.server
    ensures fs.Contents? ==> r.sc.c.metricsConfig == unmarshal(sc.c.metricsConfig, fs.bytes).into
    ensures !fs.Contents? ==> r.sc == sc
    ensures r.outcome.Pass? ==> r.sc == sc || Config.Validate(r.sc.c.metricsConfig).Pass?
  {
    var c := GetConfig(sc);
    var loaded := Config.LoadMetricsConfig(c, path, fs, unmarshal);
    var shared := SetConfig(sc, loaded.config);
    if loaded.outcome.Fail? then Reloaded(shared, loaded.outcome)
    else Reloaded(SetConfig(shared, loaded.config), Pass)
  }

  /** A file that decodes to an empty list fails validation, yet the emptied list is what readers now see. */
  lemma FailedReloadStaysVisible(sc: SafeConfig, path: string, bytes: seq<Config.byte>, unmarshal: Config.Unmarshal)
    requires |sc.c.metricsConfig.metrics| > 0
    requires unmarshal(sc.c.metricsConfig, bytes) == Config.Decoded(Config.MetricsConfig([]), None)
    ensures ReloadConfig(sc, path, Config.Contents(bytes), unmarshal).outcome == Fail(Config.MissingMetrics)
    ensures GetConfig(ReloadConfig(sc, path, Config.Contents(bytes), unmarshal).sc).metricsConfig.metrics == []
    ensures GetConfig(ReloadConfig(sc, path, Config.Contents(bytes), unmarshal).sc) != GetConfig(sc)
  {
  }

  /** The reload worker's answer to one request: nil or the reload error. */
  datatype WorkerStep = WorkerStep(sc: SafeConfig, reply: Option<Config.ConfigError>)

  /** `reloadConfigOnChannel`, one iteration: the reply is exactly the reload's result. */
  function ReloadOnChannel(sc: SafeConfig, path: string, fs: Config.FileState, unmarshal: Config.Unmarshal): (w: WorkerStep)
    ensures w.reply.None? <==> ReloadConfig(sc, path, fs, unmarshal).outcome.Pass?
    ensures w.reply.Some? ==> Fail(w.reply.value) == ReloadConfig(sc, path, fs, unmarshal).outcome
    ensures w.sc == ReloadConfig(sc, path, fs, unmarshal).sc
  {
    var r := ReloadConfig(sc, path, fs, unmarshal);
    match r.outcome
    case Fail(e) => WorkerStep(r.sc, Some(e))
    case Pass => WorkerStep(r.sc, None)
  }

  /** Everything one reload request touches. */
  datatype State = State(
    file: Config.FileState,
    sc: SafeConfig,
    collector: Collector.Collector,
    registered: Option<Collector.Collector>)

  datatype Request = Request(verb: string, body: Result<seq<Config.byte>, string>)

  /** The status and error text written; 200 with no text when no error was written. */
  datatype Reply = Reply(status: nat, text: string)

  /** The collaborators of the handler: the file path and the oracles it calls. */
  datatype Env = Env(
    configPath: string,
    unmarshal: Config.Unmarshal,
    parse: Collector.ParseNodeId,
    writeSucceeds: bool,
    register: Collector.Collector -> bool)

  /**
   * The file after the optional update: a non-empty body is written; an
   * empty body or a failed write leaves the file as it was.
   */
  function Persisted(file: Config.FileState, update: bool, body: Result<seq<Config.byte>, string>, writeSucceeds: bool): (f: Config.FileState)
    ensures f != file ==> update && body.Success? && |body.value| > 0 && f == Config.Contents(body.value)
    ensures update && body.Success? && |body.value| > 0 && writeSucceeds ==> f == Config.Contents(body.value)
  {
    if update && body.Success? && |body.value| != 0 && writeSucceeds then Config.Contents(body.value) else file
  }

  /**
   * `reloadConfigHandler`, one request. Anything but POST gets 400. With
   * `update`, an unreadable body gets 400 and nothing else happens;
   * otherwise a non-empty body is written to the file (a write error is
   * ignored). Then the configuration is reloaded; a failure adds a 500
   * but does not stop the rest: the collector is unregistered, its cache
   * rebuilt from the configuration as it now stands, and registered again.
   */
  method HandleReload(s: State, req: Request, update: bool, env: Env) returns (s': State, reply: Reply)
    ensures req.verb != "POST" ==> s' == s && reply == Reply(400, "POST method expected")
    ensures req.verb == "POST" && update && req.body.Failure? ==> s' == s && reply == Reply(400, "can't read body")
    ensures req.verb == "POST" && !(update && req.body.Failure?) ==>
      var file := Persisted(s.file, update, req.body, env.writeSucceeds);
      var loaded := Config.LoadMetricsConfig(s.sc.c, env.configPath, file, env.unmarshal);
      var metrics := loaded.config.metricsConfig.metrics;
      && s'.file == file
      && s'.sc.c == loaded.config
      && (loaded.outcome.Pass? ==> reply == Reply(200, ""))
      && (loaded.outcome.Fail? ==> reply == Reply(500, "failed to reload config: " + Config.Message(loaded.outcome.error)))
      && s'.collector.stats == s.collector.stats
      && s'.collector.errorDesc == s.collector.errorDesc
      && (Collector.AllParse(metrics, env.parse) ==> |s'.collector.cache| == |metrics|)
      && (Collector.AllParse(metrics, env.parse) ==>
            forall i :: 0 <= i < |metrics| ==> Collector.BuiltFrom(s'.collector.cache[i], metrics[i], env.parse))
      && (!Collector.AllParse(metrics, env.parse) ==> s'.collector.cache == s.collector.cache)
      && s'.registered == (if env.register(s'.collector) then Some(s'.collector) else None)
  {
    if req.verb != "POST" {
      return s, Reply(400, "POST method expected");
    }
    var file := s.file;
    if update {
      if req.body.Failure? {
        return s, Reply(400, "can't read body");
      }
      file := Persisted(s.file, update, req.body, env.writeSucceeds);
    }
    reply := Reply(200, "");
    var w := ReloadOnChannel(s.sc, env.configPath, file, env.unmarshal);
    if w.reply.Some? {
      reply := Reply(500, "failed to reload config: " + Config.Message(w.reply.value));
    }
    // unregister, rebuild the cache from the current configuration, register again
    var collector := Collector.ReloadMetrics(s.collector, GetConfig(w.sc).metricsConfig, env.parse);
    var registered := if env.register(collector) then Some(collector) else None;
    s' := State(file, w.sc, collector, registered);
  }
}

=== FILE: text.dfy ===
/** The few operations of Go's `strings` and `fmt` packages the exporter relies on. */
module Text {

  /** `strings.HasPrefix`. */
  predicate HasPrefix(s: string, prefix: string)
  {
    |prefix| <= |s| && s[..|prefix|] == prefix
  }

  /** `strings.Contains`: `sub` occurs somewhere in `s`. */
  predicate Contains(s: string, sub: string)
    decreases |s|
  {
    HasPrefix(s, sub) || (|s| > 0 && Contains(s[1..], sub))
  }

  /**
   * Lower-casing of one character, as Go's simple case mapping does it for
   * every character whose lower case is an ASCII letter: 'A'..'Z', the
   * capital I with dot above (to 'i') and the Kelvin sign (to 'k'). Other
   * characters are kept; Go maps them to characters outside ASCII, so a
   * comparison with an ASCII word comes out the same.
   */
  function LowerChar(c: char): char
  {
    if 'A' <= c <= 'Z' then (c as int + 32) as char
    else if c == '\U{0130}' then 'i'
    else if c == '\U{212A}' then 'k'
    else c
  }

  /** `strings.ToLower`, with the character mapping above. */
  function ToLower(s: string): (r: string)
    ensures |r| == |s|
    ensures forall i :: 0 <= i < |s| ==> r[i] == LowerChar(s[i])
  {
    seq(|s|, i requires 0 <= i < |s| => LowerChar(s[i]))
  }

  /** The decimal digit for `d`. */
  function Digit(d: nat): char
    requires d < 10
  {
    "0123456789"[d]
  }

  /** `fmt.Sprint` of a non-negative integer. */
  function Decimal(n: nat): (s: string)
    decreases n
  {
    if n < 10 then [Digit(n)] else Decimal(n / 10) + [Digit(n % 10)]
  }

  /** A string contains any string it ends with. */
  lemma ContainsTail(head: string, tail: string)
    ensures Contains(head + tail, tail)
    decreases |head|
  {
    if |head| == 0 {
      assert (head + tail)[..|tail|] == tail;
    } else {
      assert (head + tail)[1..] == head[1..] + tail;
      ContainsTail(head[1..], tail);
    }
  }
}

=== FILE: wrappers.dfy ===
/** Failure-compatible result types shared by every module of the model. */
module Wrappers {

  /** An optional value: Go's nil pointer or an absent error. */
  datatype Option<+T> = None | Some(value: T)

  /** A value or an error, for Go functions returning `(T, error)`. */
  datatype Result<+T, +E> = Success(value: T) | Failure(error: E)

  /** An error or nothing, for Go functions returning only `error`. */
  datatype Outcome<+E> = Pass | Fail(error: E)
}
